=== FILE: README.md ===
# Transportation bookings: lifecycle, pricing and selection rules

This project models the decision-making core of a transportation booking
service (providers, schedules, bookings, reviews behind REST endpoints). Most
of that service is declarative ORM and REST configuration. The parts with
logic of their own are modelled here:

- **Booking lifecycle.** The `confirm` action accepts only a `pending` booking.
  The `cancel` action refuses a `completed` or `cancelled` one. Both stamp a
  date and save the row. Bookings are looked up through the caller's query set,
  so an invisible booking gets a 404.
- **Booking `save`.** It recomputes `subtotal = unit_price × number_of_passengers`
  and `total_amount = subtotal + taxes + fees`. It generates a
  `TRP-<profile_id>-<8 chars>` reference only when the booking has none.
- **Selection rules.** These cover the bookings a caller may see, the
  schedules listed as available on a given day, and the required parameters
  of route search.
- **Defaults and validators.** These are the status choices and defaults
  and the 1..5 rating validators.

Money is a two-place Decimal in the service; here it is an exact integer
number of cents. Dates and instants are integers. The clock
(`timezone.now()`), the random reference suffix (`random.choices`) and the
random primary key (`uuid4`) are parameters. The database is an immutable
`Store` of two maps.

The service never reserves or releases seats. Booking creation, confirm and
cancel leave `available_seats` and `booked_seats` alone. The model states this
as frame properties: each store-level action returns the schedule table
unchanged. It does not invent seat accounting.

Bookings created without a profile header all share the profile
`customer`. Any user who sends that profile header can therefore list and
cancel them (`Views.HeaderlessBookingsAreShared`). Whether a gateway in
front of the service filters that header is outside the model.

Modules: `Results` (Option/Result), `Seqs` (order-preserving filter and its
lemmas), `Models` (models.py), `Views` (views.py), `Lifecycle` (runs of
confirm/cancel requests).

## Model

| member | source | states |
|---|---|---|
| Models.BookingStatusRoundTrip | mainapps/transportation/models.py:354-361 | each booking status is stored as its own distinct value and reads back as itself |
| Models.NewSchedule | mainapps/transportation/models.py:322-337 | a new schedule has `booked_seats` 0 and status `scheduled` unless the request sets them; the seat counters are non-negative |
| Views.NewScheduleIsAvailable | mainapps/transportation/views.py:215-219 | a schedule created with the default status and a free seat is listed as available on every day up to its departure |
| Models.GenerateReference | mainapps/transportation/models.py:447-454 | a generated reference is "TRP-", the profile id, "-" and 8 upper-case letters or digits (13 characters plus the profile id); with a profile id of at most 50 characters it fits a 63-character column |
| Models.ParseGeneratedReference | mainapps/transportation/models.py:452-454 | a generated reference can be parsed back into exactly the profile id and suffix it was built from |
| Models.GenerateParsedReference | mainapps/transportation/models.py:452-454 | any string that parses as a reference is exactly the reference generated from its parts |
| Models.DeclaredColumnTooShort | mainapps/transportation/models.py:368 | a reference generated for a profile id longer than 7 characters does not fit the declared 20-character column |
| Models.Save | mainapps/transportation/models.py:437-445 | after save, subtotal is unit price times passengers and total is subtotal plus taxes plus fees; a non-empty reference is kept; an empty one is replaced by a parseable `TRP-<profile>-<suffix>`; no other field changes |
| Models.SaveKeepsSaved | mainapps/transportation/models.py:437-445 | saving an already-saved booking changes nothing, whatever suffix would be drawn |
| Models.SaveIdempotent | mainapps/transportation/models.py:441-445 | saving twice gives the same booking as saving once, so totals and reference are stable |
| Models.NewBooking | mainapps/transportation/models.py:387-423 | a new booking is saved; its head count, taxes, fees, status and payment status are the request's, or 1, 0.00, 0.00, pending and "pending" when the request leaves them out; its unit price is the request's and its creator is recorded; with default taxes and fees its total is unit price times passengers; it has no confirmation or cancellation date |
| Models.ValidateRatings | mainapps/transportation/models.py:515-541 | the rating validators accept iff the rating is in 1..5 and each detailed rating is absent or in 1..5; a rejection names exactly the out-of-range fields |
| Views.VisibleBookings | mainapps/transportation/views.py:239-252 | a booking is listed iff its passenger is the caller, or a non-empty profile header is sent and the booking belongs to that profile |
| Views.HeaderOnlyWidensVisibility | mainapps/transportation/views.py:247-252 | the bookings seen without a profile header are exactly the caller's own bookings among those seen with one |
| Views.EmptyHeaderIsNoHeader | mainapps/transportation/views.py:241-252 | an empty profile header gives the same listing as no header |
| Views.AvailableSchedules | mainapps/transportation/views.py:212-219 | a schedule is listed as available iff it is `scheduled`, has a free seat and departs today or later |
| Views.AvailabilityShrinksOverTime | mainapps/transportation/views.py:215-219 | the available list on a later day is the earlier day's list without the schedules departing before the later day |
| Views.AvailableOfConcatenation | mainapps/transportation/views.py:215-219 | availability of a combined batch of schedules is the availability of each part, in order |
| Views.SearchRoutesQuery | mainapps/transportation/views.py:150-179 | route search passes its parameter checks iff origin and destination are both non-empty and a non-empty date parses; a missing origin or destination is refused first with "origin and destination are required"; an unparseable date is then refused with "Invalid date format. Use YYYY-MM-DD"; an empty date counts as none |
| Views.SearchDateIndependence | mainapps/transportation/views.py:156-167 | the date and its parser do not matter when origin or destination is missing, and the parser does not matter when no date is sent |
| Views.Confirm | mainapps/transportation/views.py:263-274 | confirm succeeds iff the booking is pending; it then becomes confirmed with confirmation date `now`; pricing, ownership and cancellation date are unchanged; otherwise it is refused with "Only pending bookings can be confirmed" |
| Views.Cancel | mainapps/transportation/views.py:280-291 | cancel succeeds iff the status is pending, confirmed, checked-in, boarded or no-show; it then becomes cancelled with cancellation date `now`, pricing and ownership unchanged; completed or cancelled bookings are refused |
| Views.CancelledIsFinal | mainapps/transportation/views.py:263-295 | after a cancel, a second cancel and a confirm are both refused with their error messages |
| Views.TransitionsNeedNoResave | mainapps/transportation/views.py:273-292 | on a saved booking, the save that follows confirm or cancel changes nothing further |
| Views.GetBookingAgreesWithListing | mainapps/transportation/views.py:239-252 | in a valid store, a booking can be fetched by id (otherwise 404) iff it appears in the caller's listing of all stored bookings, since lookup and listing share one query set |
| Views.ConfirmAction | mainapps/transportation/views.py:263-278 | the confirm endpoint succeeds iff the booking exists, is visible and is pending; a missing or invisible booking is always the 404 and a visible non-pending one the 400; only that booking row changes, to confirmed with confirmation date `now`; its owner, schedule, prices, payment status, booking date, cancellation date and existing reference stay; the schedule table (seat counters included) is unchanged; the store invariant and totals are kept |
| Views.CancelAction | mainapps/transportation/views.py:280-295 | the cancel endpoint succeeds iff the booking exists, is visible and is cancellable; a missing or invisible booking is always the 404 and a visible completed or cancelled one the 400; only that row changes, to cancelled with cancellation date `now`; its owner, schedule, prices, payment status, booking date, confirmation date and existing reference stay; schedules and seat counters are unchanged; invariant and totals are kept |
| Views.SecondCancelRefused | mainapps/transportation/views.py:283-288 | cancelling a booking a second time through the endpoint is refused with 400, not repeated |
| Views.HeaderlessBookingsAreShared | mainapps/transportation/views.py:247-259 | a booking created without a profile header gets the shared profile "customer", so any other user sending that header can see it and cancel it |
| Views.CreateAction | mainapps/transportation/views.py:254-261 | booking creation fails on an unknown schedule or a taken id; otherwise it adds exactly one row: the new booking built from the request with the caller as passenger and creator and the creator's profile, visible to its creator, with a generated reference for that profile, pending when no status is sent; schedules and seat counters are untouched; the store invariant is kept |
| Views.DefaultProfileReferenceTooLong | mainapps/transportation/views.py:259 | a booking created without a profile header gets a 21-character reference, over the declared 20 but within the corrected 63 |
| Lifecycle.Step | mainapps/transportation/views.py:263-295 | one confirm or cancel request never changes pricing or ownership |
| Lifecycle.RunStaysOnMainPath | mainapps/transportation/views.py:267-290 | from pending, confirmed or cancelled, any run of confirm/cancel requests stays among those three statuses |
| Lifecycle.RunOffMainPath | mainapps/transportation/views.py:267-290 | from checked-in, boarded, completed or no-show, a run either keeps the status or ends cancelled |
| Lifecycle.CancelledStaysCancelled | mainapps/transportation/views.py:267-288 | a cancelled booking is unchanged in every field by any run of requests, so its cancellation date stands |
| Lifecycle.RunKeepsPricing | mainapps/transportation/views.py:273-292 | no run of requests changes the price fields, the totals or the ownership of a booking |
| Lifecycle.RunKeepsDatesRecorded | mainapps/transportation/views.py:273-291 | if confirmed and cancelled bookings carry their dates beforehand, they still do after any run |
| Lifecycle.ConfirmationDateFixedAfterPending | mainapps/transportation/views.py:267-274 | once a booking has left pending, its confirmation date never changes again |
| Lifecycle.ConfirmActionIsStep | mainapps/transportation/views.py:263-278 | on a valid store and a visible booking, the confirm endpoint stores exactly what one confirm request does to the row, and a refused request is a request that leaves it unchanged |
| Lifecycle.CancelActionIsStep | mainapps/transportation/views.py:280-295 | on a valid store and a visible booking, the cancel endpoint stores exactly what one cancel request does to the row, and a refused request is a request that leaves it unchanged |

## Left out

- ORM query sets, `select_related`/`prefetch_related`, pagination, ordering, routers and the generic create/update/delete endpoints are framework plumbing. The generic update can also set `status` to any choice, because the serializer leaves it writable; the model covers only confirm and cancel.
- Request filters (`filters.py`), the `icontains` route and city matching, and the provider `schedules` action need the filter library's and the database's text matching. They are not modelled. `Views.SearchRoutesQuery` models only the parameter checks: origin and destination are required, then an unparseable date is refused.
- Date parsing with `strptime` is library behaviour. Route search takes the parser as a parameter and assumes no date grammar.
- Passenger detail rows created with a booking, the serializers' field lists and other models' fields carry no decisions and are not modelled.
- The service has no locking and no seat accounting. Seat reservation and overbooking prevention are not modelled, apart from the frame facts that no booking action touches the seat counters.
- Lifecycle: runs of requests are sequential. The handlers read, check and rewrite the whole row without a lock, so a confirm and a cancel served at the same moment can both pass their checks on the same stale `pending` row. If the confirm's write lands last, the row ends up confirmed with its cancellation date cleared. `Lifecycle.CancelledStaysCancelled`, `Views.CancelledIsFinal` and `Views.SecondCancelRefused` hold only for requests on one booking served one after another.
- Views.CreateAction: the request is assumed to pass the serializer's field validation. That validation covers column lengths such as `payment_status` (20 characters) and the required passenger name, email and phone, and it answers 400 otherwise. Only the schedule-key check is modelled.
- Limits on the columns the service computes itself (`subtotal` and `total_amount` against `max_digits=10`, and `booking_reference`) are database constraints that the code does not check. The reference length is the exception; it is listed under Findings.
- Uniqueness of `booking_reference` (a random collision raising an integrity error) is not modelled. Only the primary-key collision on insert is.
- Models.ValidateRatings: only the rating validators are modelled, not review creation. Review creation also needs `comment` and `reviewer_name`. As written it cannot store a review: `booking` is a required one-to-one column that neither the review serializer nor `perform_create` supplies.
- Views.GetBooking: permission classes and query-parameter filters applied by `get_object` are not modelled; only the visibility filter is.
- A provider's `average_rating` (bounded to 0..5) and `total_reviews` are not modelled. No code in the service recomputes them, and clients cannot write them.
- The generic schedule update endpoints are not modelled. Through them a client can overwrite `available_seats`, `booked_seats` and `status`, because the schedule serializer leaves them writable. Only the booking actions are shown to leave seat counters alone.
- `filters.py` refers to the two status choice sets as attributes of their models, but they are declared at module level. Loading the views module as written would fail with an attribute error. The model describes the handlers' logic as if they load.

## Findings

| source | as written | input that shows it | evidently intended | confidence | as-written member | corrected member |
|---|---|---|---|---|---|---|
| mainapps/transportation/models.py:368 | `booking_reference` is declared with `max_length=20` | a booking created without a profile header gets profile "customer" and the reference "TRP-customer-XXXXXXXX", which is 21 characters; any profile id longer than 7 characters overflows | the column holds every generated reference: 4 + 50 + 1 + 8 = 63 characters for a profile id of at most 50 | medium, not executed; the overflow is only rejected by databases that enforce character-column lengths | Models.DeclaredColumnTooShort | Models.GenerateReference |

=== FILE: lifecycle.dfy ===
/** Runs of confirm and cancel requests against one booking, served one
    after another. The two actions are the only status changes the service
    makes itself, so these runs are every path a booking's status can take
    through them when requests on one booking do not overlap. Overlapping
    requests are not modelled: each handler reads, checks and rewrites the
    whole row without a lock. */
module Lifecycle {
  import opened Models
  import opened Views

  /** A confirm or cancel request, with the time the handler reads. */
  datatype Request = ConfirmRequest(at: Instant) | CancelRequest(at: Instant)

  /** The booking after one request; a refused request leaves it as it is. */
  function Step(b: Booking, req: Request): (r: Booking)
    ensures SamePricing(b, r) && SameParties(b, r)
  {
    var outcome := match req
      case ConfirmRequest(t) => Confirm(b, t)
      case CancelRequest(t) => Cancel(b, t);
    if outcome.Ok? then outcome.value else b
  }

  /** The booking after the requests in `reqs`, applied in order. */
  function Run(b: Booking, reqs: seq<Request>): Booking
    decreases |reqs|
  {
    if |reqs| == 0 then b else Run(Step(b, reqs[0]), reqs[1..])
  }

  /** The statuses the two actions move a new booking through. */
  predicate OnMainPath(s: BookingStatus) {
    s == Pending || s == Confirmed || s == Cancelled
  }

  /** From pending, confirmed or cancelled, confirm and cancel never lead
      anywhere else: checked-in, boarded, completed and no-show are not
      reachable through these actions. */
  lemma {:induction false} RunStaysOnMainPath(b: Booking, reqs: seq<Request>)
    requires OnMainPath(b.status)
    ensures OnMainPath(Run(b, reqs).status)
    decreases |reqs|
  {
    if |reqs| > 0 {
      RunStaysOnMainPath(Step(b, reqs[0]), reqs[1..]);
    }
  }

  /** Off the main path (checked-in, boarded, completed, no-show) a booking
      either keeps its status or is cancelled. */
  lemma {:induction false} RunOffMainPath(b: Booking, reqs: seq<Request>)
    requires !OnMainPath(b.status)
    ensures Run(b, reqs).status == b.status || Run(b, reqs).status == Cancelled
    decreases |reqs|
  {
    if |reqs| > 0 {
      var b1 := Step(b, reqs[0]);
      if b1.status == b.status {
        RunOffMainPath(b1, reqs[1..]);
      } else {
        CancelledStaysCancelled(b1, reqs[1..]);
      }
    }
  }

  /** A cancelled booking is final: no run of requests changes it in any
      field, in particular not its cancellation date. */
  lemma {:induction false} CancelledStaysCancelled(b: Booking, reqs: seq<Request>)
    requires b.status == Cancelled
    ensures Run(b, reqs) == b
    decreases |reqs|
  {
    if |reqs| > 0 {
      assert Step(b, reqs[0]) == b;
      CancelledStaysCancelled(b, reqs[1..]);
    }
  }

  /** No run of requests changes the price fields, the totals or the
      ownership of a booking. */
  lemma {:induction false} RunKeepsPricing(b: Booking, reqs: seq<Request>)
    ensures SamePricing(b, Run(b, reqs)) && SameParties(b, Run(b, reqs))
    decreases |reqs|
  {
    if |reqs| > 0 {
      RunKeepsPricing(Step(b, reqs[0]), reqs[1..]);
    }
  }

  /** A status that records a confirmation or cancellation carries its date. */
  predicate DatesRecorded(b: Booking) {
    && (b.status == Confirmed ==> b.confirmationDate.Some?)
    && (b.status == Cancelled ==> b.cancellationDate.Some?)
  }

  /** Runs keep the dates in step with the status. */
  lemma {:induction false} RunKeepsDatesRecorded(b: Booking, reqs: seq<Request>)
    requires DatesRecorded(b)
    ensures DatesRecorded(Run(b, reqs))
    decreases |reqs|
  {
    if |reqs| > 0 {
      RunKeepsDatesRecorded(Step(b, reqs[0]), reqs[1..]);
    }
  }

  /** A booking is confirmed at most once: once it has left pending, no run
      of requests changes its confirmation date. */
  lemma {:induction false} ConfirmationDateFixedAfterPending(b: Booking, reqs: seq<Request>)
    requires b.status != Pending
    ensures Run(b, reqs).confirmationDate == b.confirmationDate
    decreases |reqs|
  {
    if |reqs| > 0 {
      ConfirmationDateFixedAfterPending(Step(b, reqs[0]), reqs[1..]);
    }
  }

  /** The confirm endpoint, on a stored booking the caller can see, stores
      exactly what one confirm request does to it, and a refused request
      stores nothing; so runs of requests describe the endpoint. */
  lemma ConfirmActionIsStep(db: Store, c: Caller, id: Uuid, now: Instant, suffix: Suffix)
    requires Valid(db) && id in db.bookings && VisibleTo(db.bookings[id], c)
    ensures ConfirmAction(db, c, id, now, suffix).Ok? ==>
              ConfirmAction(db, c, id, now, suffix).value.bookings[id] == Step(db.bookings[id], ConfirmRequest(now))
    ensures ConfirmAction(db, c, id, now, suffix).Err? ==>
              Step(db.bookings[id], ConfirmRequest(now)) == db.bookings[id]
  {
    TransitionsNeedNoResave(db.bookings[id], now, suffix);
  }

  /** The cancel endpoint, likewise, stores exactly what one cancel request
      does to a visible stored booking. */
  lemma CancelActionIsStep(db: Store, c: Caller, id: Uuid, now: Instant, suffix: Suffix)
    requires Valid(db) && id in db.bookings && VisibleTo(db.bookings[id], c)
    ensures CancelAction(db, c, id, now, suffix).Ok? ==>
              CancelAction(db, c, id, now, suffix).value.bookings[id] == Step(db.bookings[id], CancelRequest(now))
    ensures CancelAction(db, c, id, now, suffix).Err? ==>
              Step(db.bookings[id], CancelRequest(now)) == db.bookings[id]
  {
    TransitionsNeedNoResave(db.bookings[id], now, suffix);
  }
}

=== FILE: models.dfy ===
/** The records of the transportation service (mainapps/transportation/models.py):
    schedules, bookings and reviews, their choice sets and defaults, the
    booking's `save` hook (totals and reference) and the field validators on
    ratings. Money is a two-place Decimal in the service; here it is an exact
    whole number of cents. */
module Models {
  import opened Results

  /** A two-place Decimal amount, as a whole number of cents. */
  type Cents = int
  /** A calendar day (a DateField), as a day number. */
  type Date = int
  /** A moment in time (a DateTimeField). */
  type Instant = int
  /** A primary key (a UUIDField). */
  type Uuid = string

  /** The value of an optional request field, or the column default. */
  function OrDefault<T>(o: Option<T>, default: T): T {
    match o
    case Some(v) => v
    case None => default
  }

  // ---------------------------------------------------------------------------
  // Choice sets

  datatype BookingStatus =
    | Pending | Confirmed | CheckedIn | Boarded | Completed | Cancelled | NoShow
  {
    /** The value stored in the `status` column. */
    function Value(): string {
      match this
      case Pending => "pending"
      case Confirmed => "confirmed"
      case CheckedIn => "checked_in"
      case Boarded => "boarded"
      case Completed => "completed"
      case Cancelled => "cancelled"
      case NoShow => "no_show"
    }
  }

  /** The choice a stored `status` value denotes, if it is one of the choices. */
  function ParseBookingStatus(v: string): (r: Option<BookingStatus>)
    ensures r.Some? ==> r.value.Value() == v
  {
    if v == "pending" then Some(Pending)
    else if v == "confirmed" then Some(Confirmed)
    else if v == "checked_in" then Some(CheckedIn)
    else if v == "boarded" then Some(Boarded)
    else if v == "completed" then Some(Completed)
    else if v == "cancelled" then Some(Cancelled)
    else if v == "no_show" then Some(NoShow)
    else None
  }

  /** Every status is stored as a value that reads back as that status, so
      two statuses never share a stored value. */
  lemma BookingStatusRoundTrip(s: BookingStatus)
    ensures ParseBookingStatus(s.Value()) == Some(s)
  {
    match s
    case Pending =>
    case Confirmed =>
    case CheckedIn =>
    case Boarded =>
    case Completed =>
    case Cancelled =>
    case NoShow =>
  }

  /** The schedule status choices; `CalledOff` is the choice stored as
      "cancelled". */
  datatype ScheduleStatus =
    | Scheduled | Boarding | Departed | Arrived | CalledOff | Delayed

  // ---------------------------------------------------------------------------
  // Schedule

  /** One departure of a route. The seat counters are PositiveIntegerFields,
      hence `nat`; no booking action changes them. */
  datatype Schedule = Schedule(
    id: Uuid,
    profileId: string,
    departureDate: Date,
    price: Cents,
    availableSeats: nat,
    bookedSeats: nat,
    status: ScheduleStatus)

  /** A schedule as first stored: `booked_seats` defaults to 0 and `status`
      to scheduled when the request leaves them out. */
  function NewSchedule(id: Uuid, profileId: string, departureDate: Date, price: Cents,
                       availableSeats: nat, bookedSeats: Option<nat>,
                       status: Option<ScheduleStatus>): (r: Schedule)
    ensures r.id == id && r.profileId == profileId
    ensures r.departureDate == departureDate && r.price == price
    ensures r.availableSeats == availableSeats
    ensures bookedSeats.None? ==> r.bookedSeats == 0
    ensures bookedSeats.Some? ==> r.bookedSeats == bookedSeats.value
    ensures status.None? ==> r.status == Scheduled
    ensures status.Some? ==> r.status == status.value
  {
    Schedule(id, profileId, departureDate, price, availableSeats,
             OrDefault(bookedSeats, 0), OrDefault(status, Scheduled))
  }

  // ---------------------------------------------------------------------------
  // Booking reference

  const ReferencePrefix := "TRP"
  const SuffixLength := 8
  /** `max_length` of the `profile_id` column. */
  const ProfileIdMaxLength := 50
  /** The column length a generated reference needs: "TRP-", a profile id of
      at most `ProfileIdMaxLength` characters, "-" and the suffix. */
  const ReferenceMaxLength := |ReferencePrefix| + 1 + ProfileIdMaxLength + 1 + SuffixLength

  /** A character `random.choices` may draw: an ASCII upper-case letter or digit. */
  predicate SuffixChar(c: char) {
    ('A' <= c <= 'Z') || ('0' <= c <= '9')
  }

  predicate ValidSuffix(s: string) {
    |s| == SuffixLength && forall i :: 0 <= i < |s| ==> SuffixChar(s[i])
  }

  /** The random part of a reference, supplied by the caller in place of
      `random.choices(ascii_uppercase + digits, k=8)`. */
  type Suffix = s: string | ValidSuffix(s) witness "AAAAAAAA"

  /** What a reference is built from. */
  datatype Reference = Reference(profileId: string, suffix: Suffix)

  /** `generate_booking_reference`: "TRP-<profile_id>-<suffix>". */
  function GenerateReference(profileId: string, suffix: Suffix): (r: string)
    ensures |r| == |profileId| + 13
    ensures r[..4] == "TRP-" && r[|r| - 9] == '-'
    ensures forall i :: |r| - 8 <= i < |r| ==> SuffixChar(r[i])
    ensures |profileId| <= ProfileIdMaxLength ==> FitsReferenceColumn(r)
  {
    ReferencePrefix + "-" + profileId + "-" + suffix
  }

  /** Reads a reference back into its profile id and suffix: it must start
      with "TRP-" and end with "-" and eight letters or digits. */
  function ParseReference(r: string): (p: Option<Reference>)
  {
    if |r| >= 13 && r[..4] == "TRP-" && r[|r| - 9] == '-' && ValidSuffix(r[|r| - 8..]) then
      Some(Reference(r[4..|r| - 9], r[|r| - 8..]))
    else
      None
  }

  /** A generated reference reads back as the profile id and suffix it was
      built from. */
  lemma ParseGeneratedReference(profileId: string, suffix: Suffix)
    ensures ParseReference(GenerateReference(profileId, suffix)) == Some(Reference(profileId, suffix))
  {
    var r := GenerateReference(profileId, suffix);
    assert r == "TRP-" + profileId + "-" + suffix;
    assert r[4..|r| - 9] == profileId;
    assert r[|r| - 8..] == suffix;
  }

  /** Conversely, whatever reads back as a reference is exactly the reference
      generated from its parts. */
  lemma GenerateParsedReference(r: string)
    requires ParseReference(r).Some?
    ensures GenerateReference(ParseReference(r).value.profileId, ParseReference(r).value.suffix) == r
  {
    var p := ParseReference(r).value;
    assert r == r[..4] + r[4..|r| - 9] + [r[|r| - 9]] + r[|r| - 8..];
  }

  /** Whether a reference fits a column of `ReferenceMaxLength` characters. */
  predicate FitsReferenceColumn(r: string) {
    |r| <= ReferenceMaxLength
  }

  /** `max_length` of the `booking_reference` column as declared. */
  const DeclaredReferenceMaxLength := 20

  /** Whether a reference fits the column as declared. */
  predicate FitsDeclaredReferenceColumn(r: string) {
    |r| <= DeclaredReferenceMaxLength
  }

  /** As declared, the reference column is too short for any profile id of
      more than seven characters. */
  lemma DeclaredColumnTooShort(profileId: string, suffix: Suffix)
    requires |profileId| > 7
    ensures !FitsDeclaredReferenceColumn(GenerateReference(profileId, suffix))
  {
  }

  // ---------------------------------------------------------------------------
  // Booking

  datatype Booking = Booking(
    id: Uuid,
    bookingReference: string,
    scheduleId: Uuid,
    passengerUserId: string,
    profileId: string,
    createdById: Option<string>,
    numberOfPassengers: nat,
    unitPrice: Cents,
    subtotal: Cents,
    taxes: Cents,
    fees: Cents,
    totalAmount: Cents,
    status: BookingStatus,
    paymentStatus: string,
    bookingDate: Instant,
    confirmationDate: Option<Instant>,
    cancellationDate: Option<Instant>)

  /** The stored totals agree with the price, the head count and the charges. */
  predicate TotalsConsistent(b: Booking) {
    && b.subtotal == b.unitPrice * b.numberOfPassengers
    && b.totalAmount == b.subtotal + b.taxes + b.fees
  }

  /** What every row written through `save` satisfies. */
  predicate Saved(b: Booking) {
    b.bookingReference != "" && TotalsConsistent(b)
  }

  /** The fields a booking's totals are computed from agree. */
  predicate SamePricingInputs(b: Booking, b': Booking) {
    && b'.numberOfPassengers == b.numberOfPassengers
    && b'.unitPrice == b.unitPrice
    && b'.taxes == b.taxes
    && b'.fees == b.fees
  }

  /** The price-related fields of two bookings agree, totals included. */
  predicate SamePricing(b: Booking, b': Booking) {
    && SamePricingInputs(b, b')
    && b'.subtotal == b.subtotal
    && b'.totalAmount == b.totalAmount
  }

  /** The identity and ownership columns of two bookings agree. */
  predicate SameOwnership(b: Booking, b': Booking) {
    && b'.id == b.id
    && b'.scheduleId == b.scheduleId
    && b'.passengerUserId == b.passengerUserId
    && b'.profileId == b.profileId
    && b'.createdById == b.createdById
  }

  /** The identity and ownership fields of two bookings agree, reference
      included. */
  predicate SameParties(b: Booking, b': Booking) {
    SameOwnership(b, b') && b'.bookingReference == b.bookingReference
  }

  /** `TransportationBooking.save`: an empty reference is replaced by a
      generated one (using `suffix`), then the subtotal and the total are
      recomputed. Nothing else changes. */
  function Save(b: Booking, suffix: Suffix): (r: Booking)
    ensures Saved(r)
    ensures r.subtotal == b.unitPrice * b.numberOfPassengers
    ensures r.totalAmount == b.unitPrice * b.numberOfPassengers + b.taxes + b.fees
    ensures b.bookingReference != "" ==> r.bookingReference == b.bookingReference
    ensures b.bookingReference == "" ==> ParseReference(r.bookingReference) == Some(Reference(b.profileId, suffix))
    ensures r == b.(bookingReference := r.bookingReference, subtotal := r.subtotal, totalAmount := r.totalAmount)
  {
    var reference := if b.bookingReference == "" then GenerateReference(b.profileId, suffix) else b.bookingReference;
    ParseGeneratedReference(b.profileId, suffix);
    var subtotal := b.unitPrice * b.numberOfPassengers;
    b.(bookingReference := reference, subtotal := subtotal, totalAmount := subtotal + b.taxes + b.fees)
  }

  /** Saving a row that was already saved leaves it as it is, whatever
      suffix would have been drawn. */
  lemma SaveKeepsSaved(b: Booking, suffix: Suffix)
    requires Saved(b)
    ensures Save(b, suffix) == b
  {
  }

  /** Saving is idempotent: a second save changes neither the reference nor
      the totals. */
  lemma SaveIdempotent(b: Booking, suffix: Suffix, suffix': Suffix)
    ensures Save(Save(b, suffix), suffix') == Save(b, suffix)
  {
    SaveKeepsSaved(Save(b, suffix), suffix');
  }

  /** The writable fields of a booking-creation request; the fields left out
      of the request take their column defaults. */
  datatype BookingRequest = BookingRequest(
    scheduleId: Uuid,
    numberOfPassengers: Option<nat>,
    unitPrice: Cents,
    taxes: Option<Cents>,
    fees: Option<Cents>,
    status: Option<BookingStatus>,
    paymentStatus: Option<string>)

  /** A booking as first stored: column defaults fill what the request left
      out (one passenger, no taxes or fees, status pending, payment pending),
      the reference and totals are read-only so `save` computes them, and no
      confirmation or cancellation has happened yet. */
  function NewBooking(req: BookingRequest, id: Uuid, passengerUserId: string, profileId: string,
                      createdById: string, now: Instant, suffix: Suffix): (r: Booking)
    ensures Saved(r)
    ensures r.id == id && r.scheduleId == req.scheduleId
    ensures r.passengerUserId == passengerUserId && r.profileId == profileId
    ensures r.bookingReference == GenerateReference(profileId, suffix)
    ensures r.createdById == Some(createdById)
    ensures r.numberOfPassengers == OrDefault(req.numberOfPassengers, 1)
    ensures r.unitPrice == req.unitPrice
    ensures r.taxes == OrDefault(req.taxes, 0) && r.fees == OrDefault(req.fees, 0)
    ensures req.status.None? ==> r.status == Pending
    ensures req.status.Some? ==> r.status == req.status.value
    ensures r.paymentStatus == OrDefault(req.paymentStatus, "pending")
    ensures req.taxes.None? && req.fees.None? ==> r.totalAmount == req.unitPrice * r.numberOfPassengers
    ensures r.bookingDate == now
    ensures r.confirmationDate.None? && r.cancellationDate.None?
  {
    var unsaved := Booking(
      id, "", req.scheduleId, passengerUserId, profileId, Some(createdById),
      OrDefault(req.numberOfPassengers, 1),
      req.unitPrice, 0, OrDefault(req.taxes, 0), OrDefault(req.fees, 0), 0,
      OrDefault(req.status, Pending), OrDefault(req.paymentStatus, "pending"),
      now, None, None);
    Save(unsaved, suffix)
  }

  // ---------------------------------------------------------------------------
  // Ratings

  const MinRating := 1
  const MaxRating := 5

  predicate ValidRating(n: int) {
    MinRating <= n <= MaxRating
  }

  /** An optional detailed rating is either absent or in range. */
  predicate ValidOptionalRating(n: Option<int>) {
    n.None? || ValidRating(n.value)
  }

  /** The rating fields of a review as submitted. */
  datatype ReviewRatings = ReviewRatings(
    rating: int,
    punctuality: Option<int>,
    comfort: Option<int>,
    service: Option<int>,
    value: Option<int>)

  function RatingError(field: string, n: int): seq<string> {
    if ValidRating(n) then [] else [field]
  }

  function OptionalRatingError(field: string, n: Option<int>): seq<string> {
    match n
    case None => []
    case Some(v) => RatingError(field, v)
  }

  /** The 1..5 validators on a review's rating fields: accepted when every
      given rating is in range, otherwise rejected naming each field that
      is out of range. */
  function ValidateRatings(x: ReviewRatings): (r: Result<ReviewRatings, seq<string>>)
    ensures r.Ok? <==> ValidRating(x.rating) && ValidOptionalRating(x.punctuality)
                       && ValidOptionalRating(x.comfort) && ValidOptionalRating(x.service)
                       && ValidOptionalRating(x.value)
    ensures r.Ok? ==> r.value == x
    ensures r.Err? ==> |r.error| > 0
    ensures r.Err? ==> ("rating" in r.error <==> !ValidRating(x.rating))
    ensures r.Err? ==> ("punctuality_rating" in r.error <==> !ValidOptionalRating(x.punctuality))
    ensures r.Err? ==> ("comfort_rating" in r.error <==> !ValidOptionalRating(x.comfort))
    ensures r.Err? ==> ("service_rating" in r.error <==> !ValidOptionalRating(x.service))
    ensures r.Err? ==> ("value_rating" in r.error <==> !ValidOptionalRating(x.value))
  {
    var errors := RatingError("rating", x.rating)
      + OptionalRatingError("punctuality_rating", x.punctuality)
      + OptionalRatingError("comfort_rating", x.comfort)
      + OptionalRatingError("service_rating", x.service)
      + OptionalRatingError("value_rating", x.value);
    if errors == [] then Ok(x) else Err(errors)
  }
}

=== FILE: results.dfy ===
/** Failure-carrying wrappers used across the model: an optional value (a
    nullable column or an absent request parameter) and the outcome of a
    request handler (a value, or the error response it returns). */
module Results {

  datatype Option<+T> = None | Some(value: T)

  datatype Result<+T, +E> = Ok(value: T) | Err(error: E) {
    predicate IsFailure() {
      Err?
    }

    function PropagateFailure<U>(): Result<U, E>
      requires Err?
    {
      Err(error)
    }

    function Extract(): T
      requires Ok?
    {
      value
    }
  }
}

=== FILE: seqs.dfy ===
/** Order-preserving selection over a sequence of records: the shape of a
    query-set `.filter(...)` once the rows are in hand. */
module Seqs {

  /** The elements of `s` that satisfy `p`, in their original order. */
  function Filter<T(!new)>(s: seq<T>, p: T -> bool): (r: seq<T>)
    ensures |r| <= |s|
    ensures forall x :: x in r <==> x in s && p(x)
    ensures forall i :: 0 <= i < |r| ==> p(r[i])
  {
    if |s| == 0 then []
    else if p(s[0]) then [s[0]] + Filter(s[1..], p)
    else Filter(s[1..], p)
  }

  /** Filtering distributes over concatenation: selecting from two batches of
      rows one after the other gives the selection from the whole. */
  lemma {:induction false} FilterAppend<T(!new)>(a: seq<T>, b: seq<T>, p: T -> bool)
    ensures Filter(a + b, p) == Filter(a, p) + Filter(b, p)
  {
    if |a| == 0 {
      assert a + b == b;
    } else {
      assert (a + b)[1..] == a[1..] + b;
      FilterAppend(a[1..], b, p);
    }
  }

  /** Two predicates that agree on every element of `s` select the same
      elements from it. */
  lemma {:induction false} FilterCongruent<T(!new)>(s: seq<T>, p: T -> bool, q: T -> bool)
    requires forall i :: 0 <= i < |s| ==> (p(s[i]) <==> q(s[i]))
    ensures Filter(s, p) == Filter(s, q)
  {
    if |s| > 0 {
      FilterCongruent(s[1..], p, q);
    }
  }

  /** A weaker predicate selects at least the rows a stronger one does:
      every row kept by `p` is kept by `q`, in the same relative order. */
  lemma {:induction false} FilterMonotone<T(!new)>(s: seq<T>, p: T -> bool, q: T -> bool)
    requires forall x :: p(x) ==> q(x)
    ensures Filter(s, p) == Filter(Filter(s, q), p)
  {
    if |s| > 0 {
      FilterMonotone(s[1..], p, q);
      if q(s[0]) {
        assert ([s[0]] + Filter(s[1..], q))[1..] == Filter(s[1..], q);
      }
    }
  }
}

=== FILE: views.dfy ===
/** The request handlers of the transportation service
    (mainapps/transportation/views.py) that hold decisions of their own:
    which bookings a caller may see, which schedules are open for booking,
    the parameter check of route search, booking creation and the confirm
    and cancel actions. The database is an immutable `Store`; the clock and
    the random reference suffix are parameters. */
module Views {
  import opened Results
  import opened Models
  import Seqs

  /** An error response. `BadRequest` is HTTP 400 with an error message,
      `InvalidField` a 400 from request validation naming the field,
      `NotFound` the 404 of a lookup outside the caller's query set, and
      `IntegrityError` a rejected insert. */
  datatype ApiError =
    | BadRequest(message: string)
    | InvalidField(field: string)
    | NotFound
    | IntegrityError

  const NotPendingMessage := "Only pending bookings can be confirmed"
  const NotCancellableMessage := "Cannot cancel completed or already cancelled booking"
  const MissingSearchParamsMessage := "origin and destination are required"
  /** The profile id a booking gets when its creator sends no profile header. */
  const DefaultProfileId := "customer"

  /** The authenticated user and the optional `X-Profile-ID` header. */
  datatype Caller = Caller(userId: string, profileHeader: Option<string>)

  /** Python truthiness of an optional string: present and non-empty. */
  predicate Given(v: Option<string>) {
    v.Some? && v.value != ""
  }

  // ---------------------------------------------------------------------------
  // Booking visibility

  /** The filter of `TransportationBookingViewSet.get_queryset`. */
  predicate VisibleTo(b: Booking, c: Caller) {
    if Given(c.profileHeader) then
      b.passengerUserId == c.userId || b.profileId == c.profileHeader.value
    else
      b.passengerUserId == c.userId
  }

  /** The bookings a caller can list: exactly those whose passenger is the
      caller, plus, when a profile header is sent, those of that profile. */
  function VisibleBookings(bs: seq<Booking>, c: Caller): (r: seq<Booking>)
    ensures forall b :: b in r <==>
      b in bs && (b.passengerUserId == c.userId || (Given(c.profileHeader) && b.profileId == c.profileHeader.value))
    ensures |r| <= |bs|
  {
    Seqs.Filter(bs, b => VisibleTo(b, c))
  }

  /** A profile header only ever adds bookings: what a caller sees without it
      is what they see with it, narrowed to their own bookings. */
  lemma HeaderOnlyWidensVisibility(bs: seq<Booking>, userId: string, header: Option<string>)
    ensures VisibleBookings(bs, Caller(userId, None))
         == Seqs.Filter(VisibleBookings(bs, Caller(userId, header)), (b: Booking) => b.passengerUserId == userId)
  {
    var own := (b: Booking) => VisibleTo(b, Caller(userId, None));
    var seen := (b: Booking) => VisibleTo(b, Caller(userId, header));
    Seqs.FilterMonotone(bs, own, seen);
    var visible := VisibleBookings(bs, Caller(userId, header));
    Seqs.FilterCongruent(visible, own, (b: Booking) => b.passengerUserId == userId);
  }

  /** An empty header is treated exactly like a missing one. */
  lemma EmptyHeaderIsNoHeader(bs: seq<Booking>, userId: string)
    ensures VisibleBookings(bs, Caller(userId, Some(""))) == VisibleBookings(bs, Caller(userId, None))
  {
    Seqs.FilterCongruent(bs, (b: Booking) => VisibleTo(b, Caller(userId, Some(""))),
                         (b: Booking) => VisibleTo(b, Caller(userId, None)));
  }

  // ---------------------------------------------------------------------------
  // Available schedules

  /** The filter of `ScheduleViewSet.available`. */
  predicate Bookable(s: Schedule, today: Date) {
    s.status == Scheduled && s.availableSeats > 0 && s.departureDate >= today
  }

  /** The schedules listed as available on `today`: exactly those still
      scheduled, with a free seat, departing today or later, in their
      original order. */
  function AvailableSchedules(ss: seq<Schedule>, today: Date): (r: seq<Schedule>)
    ensures forall s :: s in r <==>
      s in ss && s.status == Scheduled && s.availableSeats > 0 && s.departureDate >= today
    ensures |r| <= |ss|
  {
    Seqs.Filter(ss, s => Bookable(s, today))
  }

  /** Availability only shrinks as days pass: the list on a later day is the
      list on an earlier day with the schedules that have since departed
      removed. */
  lemma AvailabilityShrinksOverTime(ss: seq<Schedule>, earlier: Date, later: Date)
    requires earlier <= later
    ensures AvailableSchedules(ss, later)
         == Seqs.Filter(AvailableSchedules(ss, earlier), (s: Schedule) => s.departureDate >= later)
  {
    var p := (s: Schedule) => Bookable(s, later);
    var q := (s: Schedule) => Bookable(s, earlier);
    Seqs.FilterMonotone(ss, p, q);
    Seqs.FilterCongruent(AvailableSchedules(ss, earlier), p, (s: Schedule) => s.departureDate >= later);
  }

  /** The available list of a batch of schedules is the available list of
      each part, in order. */
  lemma AvailableOfConcatenation(a: seq<Schedule>, b: seq<Schedule>, today: Date)
    ensures AvailableSchedules(a + b, today) == AvailableSchedules(a, today) + AvailableSchedules(b, today)
  {
    Seqs.FilterAppend(a, b, s => Bookable(s, today));
  }

  /** A schedule created with the default status and at least one seat is
      listed as available on every day up to its departure. */
  lemma NewScheduleIsAvailable(id: Uuid, profileId: string, departureDate: Date, price: Cents,
                               availableSeats: nat, bookedSeats: Option<nat>, today: Date)
    requires availableSeats > 0 && today <= departureDate
    ensures var s := NewSchedule(id, profileId, departureDate, price, availableSeats, bookedSeats, None);
            AvailableSchedules([s], today) == [s]
  {
    var s := NewSchedule(id, profileId, departureDate, price, availableSeats, bookedSeats, None);
    assert [s][1..] == [];
  }

  // ---------------------------------------------------------------------------
  // Route search

  const InvalidDateMessage := "Invalid date format. Use YYYY-MM-DD"

  /** A route search that passed the parameter checks, with its date parsed
      when one was given. */
  datatype RouteSearch = RouteSearch(origin: string, destination: string, date: Option<Date>)

  /** The parameter checks of `RouteViewSet.search_routes`. Origin and
      destination are both required and non-empty; that check comes first.
      A non-empty date must then parse, or the request is refused. Date
      parsing is the date library's: `parseDate` stands for it and no date
      grammar is assumed. */
  function SearchRoutesQuery(origin: Option<string>, destination: Option<string>,
                             date: Option<string>, parseDate: string -> Option<Date>): (r: Result<RouteSearch, ApiError>)
    ensures r.Ok? <==> Given(origin) && Given(destination) && (Given(date) ==> parseDate(date.value).Some?)
    ensures !(Given(origin) && Given(destination)) ==> r == Err(BadRequest(MissingSearchParamsMessage))
    ensures Given(origin) && Given(destination) && Given(date) && parseDate(date.value).None? ==>
              r == Err(BadRequest(InvalidDateMessage))
    ensures r.Ok? ==> r.value.origin == origin.value && r.value.destination == destination.value
    ensures r.Ok? ==> (r.value.date.Some? <==> Given(date))
    ensures r.Ok? && Given(date) ==> r.value.date == parseDate(date.value)
  {
    if !Given(origin) || !Given(destination) then
      Err(BadRequest(MissingSearchParamsMessage))
    else if !Given(date) then
      Ok(RouteSearch(origin.value, destination.value, None))
    else
      match parseDate(date.value)
      case None => Err(BadRequest(InvalidDateMessage))
      case Some(d) => Ok(RouteSearch(origin.value, destination.value, Some(d)))
  }

  /** The date parser only matters for a non-empty date: without one, any
      two parsers give the same answer, and a request missing origin or
      destination gets the same answer whatever its date. */
  lemma SearchDateIndependence(origin: Option<string>, destination: Option<string>, date: Option<string>,
                               date': Option<string>, parseDate: string -> Option<Date>,
                               parseDate': string -> Option<Date>)
    ensures !Given(date) && !Given(date') ==>
              SearchRoutesQuery(origin, destination, date, parseDate)
              == SearchRoutesQuery(origin, destination, date', parseDate')
    ensures !(Given(origin) && Given(destination)) ==>
              SearchRoutesQuery(origin, destination, date, parseDate)
              == SearchRoutesQuery(origin, destination, date', parseDate')
  {
  }

  // ---------------------------------------------------------------------------
  // Confirm and cancel

  /** The `confirm` action up to `booking.save()`: only a pending booking
      may be confirmed; it becomes confirmed, stamped with `now`. */
  function Confirm(b: Booking, now: Instant): (r: Result<Booking, ApiError>)
    ensures r.Ok? <==> b.status == Pending
    ensures r.Err? ==> r.error == BadRequest(NotPendingMessage)
    ensures r.Ok? ==> r.value.status == Confirmed && r.value.confirmationDate == Some(now)
    ensures r.Ok? ==> r.value.cancellationDate == b.cancellationDate
    ensures r.Ok? ==> SamePricing(b, r.value) && SameParties(b, r.value)
    ensures r.Ok? ==> r.value.paymentStatus == b.paymentStatus && r.value.bookingDate == b.bookingDate
  {
    if b.status != Pending then
      Err(BadRequest(NotPendingMessage))
    else
      Ok(b.(status := Confirmed, confirmationDate := Some(now)))
  }

  /** Whether `cancel` accepts a booking in status `s`. */
  predicate Cancellable(s: BookingStatus) {
    s != Completed && s != Cancelled
  }

  /** The `cancel` action up to `booking.save()`: a completed or cancelled
      booking is refused; any other becomes cancelled, stamped with `now`. */
  function Cancel(b: Booking, now: Instant): (r: Result<Booking, ApiError>)
    ensures r.Ok? <==> b.status in {Pending, Confirmed, CheckedIn, Boarded, NoShow}
    ensures r.Err? ==> r.error == BadRequest(NotCancellableMessage)
    ensures r.Ok? ==> r.value.status == Cancelled && r.value.cancellationDate == Some(now)
    ensures r.Ok? ==> r.value.confirmationDate == b.confirmationDate
    ensures r.Ok? ==> SamePricing(b, r.value) && SameParties(b, r.value)
    ensures r.Ok? ==> r.value.paymentStatus == b.paymentStatus && r.value.bookingDate == b.bookingDate
  {
    if !Cancellable(b.status) then
      Err(BadRequest(NotCancellableMessage))
    else
      Ok(b.(status := Cancelled, cancellationDate := Some(now)))
  }

  /** A cancelled booking is final for both actions: a second cancel is
      refused rather than repeated, and it can no longer be confirmed. */
  lemma CancelledIsFinal(b: Booking, now: Instant, now': Instant)
    requires Cancel(b, now).Ok?
    ensures Cancel(Cancel(b, now).value, now') == Err(BadRequest(NotCancellableMessage))
    ensures Confirm(Cancel(b, now).value, now') == Err(BadRequest(NotPendingMessage))
  {
  }

  /** A transition keeps a saved booking saved, so the `save` that follows it
      changes nothing more. */
  lemma TransitionsNeedNoResave(b: Booking, now: Instant, suffix: Suffix)
    requires Saved(b)
    ensures Confirm(b, now).Ok? ==> Save(Confirm(b, now).value, suffix) == Confirm(b, now).value
    ensures Cancel(b, now).Ok? ==> Save(Cancel(b, now).value, suffix) == Cancel(b, now).value
  {
    if Confirm(b, now).Ok? {
      SaveKeepsSaved(Confirm(b, now).value, suffix);
    }
    if Cancel(b, now).Ok? {
      SaveKeepsSaved(Cancel(b, now).value, suffix);
    }
  }

  // ---------------------------------------------------------------------------
  // The store and the booking endpoints

  /** The schedule and booking tables, keyed by primary key. */
  datatype Store = Store(schedules: map<Uuid, Schedule>, bookings: map<Uuid, Booking>)

  /** What every reachable store satisfies: each booking was written through
      `save` and refers to an existing schedule. */
  predicate Valid(db: Store) {
    forall id :: id in db.bookings ==>
      Saved(db.bookings[id]) && db.bookings[id].scheduleId in db.schedules && db.bookings[id].id == id
  }

  /** `get_object` on the booking endpoints: a booking outside the caller's
      query set is a 404, exactly as a missing one. */
  function GetBooking(db: Store, c: Caller, id: Uuid): (r: Result<Booking, ApiError>)
    ensures r.Ok? <==> id in db.bookings && VisibleTo(db.bookings[id], c)
    ensures r.Ok? ==> r.value == db.bookings[id]
    ensures r.Err? ==> r.error == NotFound
  {
    if id in db.bookings && VisibleTo(db.bookings[id], c) then Ok(db.bookings[id]) else Err(NotFound)
  }

  /** The lookup agrees with the listing: `get_object` searches the same
      query set the list endpoint shows, so a booking can be fetched by id
      iff it appears in the caller's listing of all stored bookings. */
  lemma GetBookingAgreesWithListing(db: Store, bs: seq<Booking>, c: Caller, id: Uuid)
    requires Valid(db)
    requires forall b :: b in bs <==> b in db.bookings.Values
    ensures GetBooking(db, c, id).Ok? <==> exists b :: b in VisibleBookings(bs, c) && b.id == id
  {
    if GetBooking(db, c, id).Ok? {
      var b := db.bookings[id];
      assert b in db.bookings.Values;
      assert b in VisibleBookings(bs, c);
    }
    if exists b :: b in VisibleBookings(bs, c) && b.id == id {
      var b :| b in VisibleBookings(bs, c) && b.id == id;
      assert b in db.bookings.Values;
      var k :| k in db.bookings && db.bookings[k] == b;
      assert k == id;
    }
  }

  /** Only the row `id` of the booking table differs, and it still exists. */
  predicate OnlyBookingChanged(db: Store, db': Store, id: Uuid) {
    && db'.schedules == db.schedules
    && id in db'.bookings
    && db'.bookings.Keys == db.bookings.Keys
    && forall other :: other in db.bookings && other != id ==> db'.bookings[other] == db.bookings[other]
  }

  /** The fields neither action nor the `save` after it touches. The
      reference and the totals are left out because `save` recomputes them:
      it replaces an empty reference and rederives the totals from their
      inputs, which are kept. */
  predicate UnchangedBookkeeping(b: Booking, b': Booking) {
    && SameOwnership(b, b')
    && SamePricingInputs(b, b')
    && b'.paymentStatus == b.paymentStatus
    && b'.bookingDate == b.bookingDate
  }

  /** POST bookings/<id>/confirm/. `suffix` is only drawn on if the stored
      row has no reference. */
  function ConfirmAction(db: Store, c: Caller, id: Uuid, now: Instant, suffix: Suffix): (r: Result<Store, ApiError>)
    ensures r.Ok? <==> id in db.bookings && VisibleTo(db.bookings[id], c) && db.bookings[id].status == Pending
    ensures r.Err? ==> r.error == NotFound || r.error == BadRequest(NotPendingMessage)
    ensures r.Err? ==> (r.error == NotFound <==> !(id in db.bookings && VisibleTo(db.bookings[id], c)))
    ensures r.Ok? ==> OnlyBookingChanged(db, r.value, id)
    ensures r.Ok? ==> r.value.bookings[id].status == Confirmed
    ensures r.Ok? ==> r.value.bookings[id].confirmationDate == Some(now)
    ensures r.Ok? && db.bookings[id].bookingReference != "" ==>
              r.value.bookings[id].bookingReference == db.bookings[id].bookingReference
    ensures r.Ok? ==> UnchangedBookkeeping(db.bookings[id], r.value.bookings[id])
    ensures r.Ok? ==> r.value.bookings[id].cancellationDate == db.bookings[id].cancellationDate
    ensures r.Ok? && Valid(db) ==> Valid(r.value) && SamePricing(db.bookings[id], r.value.bookings[id])
  {
    var b :- GetBooking(db, c, id);
    var confirmed :- Confirm(b, now);
    Ok(db.(bookings := db.bookings[id := Save(confirmed, suffix)]))
  }

  /** POST bookings/<id>/cancel/. `suffix` is only drawn on if the stored
      row has no reference. */
  function CancelAction(db: Store, c: Caller, id: Uuid, now: Instant, suffix: Suffix): (r: Result<Store, ApiError>)
    ensures r.Ok? <==> id in db.bookings && VisibleTo(db.bookings[id], c) && Cancellable(db.bookings[id].status)
    ensures r.Err? ==> r.error == NotFound || r.error == BadRequest(NotCancellableMessage)
    ensures r.Err? ==> (r.error == NotFound <==> !(id in db.bookings && VisibleTo(db.bookings[id], c)))
    ensures r.Ok? ==> OnlyBookingChanged(db, r.value, id)
    ensures r.Ok? ==> r.value.bookings[id].status == Cancelled
    ensures r.Ok? ==> r.value.bookings[id].cancellationDate == Some(now)
    ensures r.Ok? && db.bookings[id].bookingReference != "" ==>
              r.value.bookings[id].bookingReference == db.bookings[id].bookingReference
    ensures r.Ok? ==> UnchangedBookkeeping(db.bookings[id], r.value.bookings[id])
    ensures r.Ok? ==> r.value.bookings[id].confirmationDate == db.bookings[id].confirmationDate
    ensures r.Ok? && Valid(db) ==> Valid(r.value) && SamePricing(db.bookings[id], r.value.bookings[id])
  {
    var b :- GetBooking(db, c, id);
    var cancelled :- Cancel(b, now);
    Ok(db.(bookings := db.bookings[id := Save(cancelled, suffix)]))
  }

  /** Cancelling twice: the second request is refused and the first
      cancellation's date stands. */
  lemma SecondCancelRefused(db: Store, c: Caller, id: Uuid, now: Instant, now': Instant,
                            suffix: Suffix, suffix': Suffix)
    requires CancelAction(db, c, id, now, suffix).Ok?
    ensures CancelAction(CancelAction(db, c, id, now, suffix).value, c, id, now', suffix')
         == Err(BadRequest(NotCancellableMessage))
  {
    var db1 := CancelAction(db, c, id, now, suffix).value;
    assert db1.bookings[id] == Save(Cancel(db.bookings[id], now).value, suffix);
    assert VisibleTo(db1.bookings[id], c);
  }

  /** The profile id `perform_create` stamps on a new booking. */
  function CreatorProfile(c: Caller): (p: string)
    ensures Given(c.profileHeader) ==> p == c.profileHeader.value
    ensures !Given(c.profileHeader) ==> p == DefaultProfileId
  {
    if Given(c.profileHeader) then c.profileHeader.value else DefaultProfileId
  }

  /** Every booking created without a profile header lands in the one shared
      "customer" profile, so any other user who sends that profile header
      can see it and cancel it. */
  lemma HeaderlessBookingsAreShared(db: Store, c: Caller, req: BookingRequest, newId: Uuid,
                                    now: Instant, suffix: Suffix, other: string, later: Instant,
                                    suffix': Suffix)
    requires !Given(c.profileHeader) && req.status.None?
    requires CreateAction(db, c, req, newId, now, suffix).Ok?
    ensures var db1 := CreateAction(db, c, req, newId, now, suffix).value;
            && VisibleTo(db1.bookings[newId], Caller(other, Some(DefaultProfileId)))
            && CancelAction(db1, Caller(other, Some(DefaultProfileId)), newId, later, suffix').Ok?
  {
    var db1 := CreateAction(db, c, req, newId, now, suffix).value;
    assert db1.bookings[newId].profileId == CreatorProfile(c) == DefaultProfileId;
  }

  /** POST bookings/: the serializer rejects an unknown schedule, the insert
      is rejected if the drawn primary key is taken, and otherwise the new
      row is stored with the caller as passenger and creator. The schedule's
      seat counters are not touched. */
  function CreateAction(db: Store, c: Caller, req: BookingRequest, newId: Uuid,
                        now: Instant, suffix: Suffix): (r: Result<Store, ApiError>)
    ensures req.scheduleId !in db.schedules ==> r == Err(InvalidField("schedule"))
    ensures r.Ok? <==> req.scheduleId in db.schedules && newId !in db.bookings
    ensures r.Ok? ==> r.value.schedules == db.schedules
    ensures r.Ok? ==> r.value.bookings.Keys == db.bookings.Keys + {newId}
    ensures r.Ok? ==> r.value.bookings[newId] == NewBooking(req, newId, c.userId, CreatorProfile(c), c.userId, now, suffix)
    ensures r.Ok? ==> forall id :: id in db.bookings ==> r.value.bookings[id] == db.bookings[id]
    ensures r.Ok? ==> VisibleTo(r.value.bookings[newId], c)
    ensures r.Ok? ==> ParseReference(r.value.bookings[newId].bookingReference)
                      == Some(Reference(CreatorProfile(c), suffix))
    ensures r.Ok? && req.status.None? ==> r.value.bookings[newId].status == Pending
    ensures r.Ok? && Valid(db) ==> Valid(r.value)
  {
    if req.scheduleId !in db.schedules then
      Err(InvalidField("schedule"))
    else if newId in db.bookings then
      Err(IntegrityError)
    else
      var profile := CreatorProfile(c);
      ParseGeneratedReference(profile, suffix);
      Ok(db.(bookings := db.bookings[newId := NewBooking(req, newId, c.userId, profile, c.userId, now, suffix)]))
  }

  /** A booking created without a profile header gets a 21-character
      reference, one more than the declared reference column holds. */
  lemma DefaultProfileReferenceTooLong(suffix: Suffix)
    ensures |GenerateReference(DefaultProfileId, suffix)| == 21
    ensures !FitsDeclaredReferenceColumn(GenerateReference(DefaultProfileId, suffix))
    ensures FitsReferenceColumn(GenerateReference(DefaultProfileId, suffix))
  {
  }
}
